=== FILE: README.md ===
# fox32 host driver — a Dafny model

fox32 is an emulator of a 32-bit fantasy computer. Its host driver
(`src/main.c`) is the part that sits between the host and the emulated
processor. It does four things:

- It parses the command line: `--help`, `--disk DISK`, `--rom ROM`,
  `--debug` and `--headless`.
- It runs a pull loop that calls `main_loop` once per tick, at 60 ticks per
  second, and sleeps away whatever time is left of each tick.
- In every tick it measures the milliseconds `dt` since the previous tick.
  It cuts the processor's per-tick cycle budget (`FOX32_CPU_HZ / 60`) into
  `dt` one-millisecond slices, and the rounding remainder goes to the last
  slice.
- It drives each slice through `fox32_resume`, recovering from faults with
  `fox32_recover` and giving up on the slice when recovery fails. After the
  slices it draws the screen, raises the vertical-sync interrupt and counts
  the tick.

The model has five modules:

- `CInt` (`cint.dfy`): the C integer semantics the driver relies on. This
  covers uint32_t wrap-around, the conversion of a uint32_t to `int`, and
  division that rounds toward zero.
- `Timing` (`timing.dfy`): the tick arithmetic, as pure functions with
  lemmas. That is `dt`, the per-slice budget and its remainder, the slice
  schedule, the pacing delay of the pull loop, and the RTC uptime counter.
- `Cpu` (`cpu.dfy`): the processor as the driver sees it, plus a reference
  definition of what one slice and one tick do.
  - `fox32_resume` and `fox32_recover` are deterministic functions of a
    script of replies that is given as input.
  - `RunSlice` and `RunSlices` follow the inner `while` and the outer `for`
    of `main_loop`.
- `Args` (`args.dfy`): a reference definition of the `argv` loop, with
  lemmas about disk numbering and exit codes.
- `Host` (`host.dfy`): the driver's globals as the fields of one `Session`
  object, and the driver's code as its methods. The `argv` loop, the slice
  loops and `main_loop` are proved equal to the reference definitions
  above. The pull loop and `main` are specified by the exit condition, the
  tick count, the clock fields, the VSYNCs raised, the draws, the growth of
  the fault log and the sleeps they record.

Inputs and records:

- The host's clock readings, `time(NULL)`, the result of
  `ScreenProcessEvents()` and whether `SDL_Init` succeeds are inputs.
- Screen draws and `SDL_Delay` calls are recorded in ghost fields.
- `FOX32_CPU_HZ` is a constant of the session, because `cpu.h` is not part
  of this model.

Some C details are written out explicitly:

- **`dt`.** `int dt = SDL_GetTicks() - tick_start` is a uint32_t
  difference stored in an `int`. Only 0 is raised to 1. A stall of 2^31 ms
  or more reads as a negative `dt`, and that tick then runs no slice.
- **Budget arithmetic.** `cycles_per_tick` and `extra_cycles` use C's
  truncating division.
- **Pacing delay.** In `int delay = 1000/TPS - (tick_end - tick_start)` the
  subtraction is unsigned. An iteration longer than 2^31 + 16 ms wraps
  around to a positive delay.

For a 64 MHz clock and `dt = 16` the code leaves 1066666 − 66666·16 = 10
cycles for the last slice (`Timing.BudgetExample`).

## Model

| member | source | states |
|---|---|---|
| CInt.U32Sub | src/main.c:167 | uint32_t subtraction yields the unique value in [0, 2^32) congruent to the difference, and is exact when no wrap occurs |
| CInt.U32Inc | src/main.c:195 | `x += 1` on a uint32_t stays in range, is congruent to x + 1, and is exact below 2^32 − 1 |
| CInt.ToInt | src/main.c:167 | storing a uint32_t into an `int` gives a 32-bit value congruent to it modulo 2^32 |
| CInt.TruncDiv | src/main.c:172 | C division of a non-negative dividend leaves a remainder in [0, \|divisor\|) for either sign of the divisor |
| Timing.ElapsedMs | src/main.c:167-170 | `dt` is never 0, so the budget division is always defined; a zero difference becomes 1, a difference up to 2^31 − 1 is kept, and a larger one becomes negative |
| Timing.PerTick | src/main.c:172-173 | `FOX32_CPU_HZ / TPS`, the cycles one tick is meant to run; `Timing.ScheduleCoversTick` and `Cpu.TickUsesFullBudget` state what the slices of a tick make of it |
| Timing.ComputeBudget | src/main.c:172-173 | `cycles_per_tick` and `extra_cycles` with C's truncating division; `Timing.BudgetSplitsTick` and `Timing.BudgetIsDivMod` state that they are the quotient and remainder of the per-tick total by `dt` |
| Timing.BudgetSplitsTick | src/main.c:172-173 | `cycles_per_tick * dt + extra_cycles` equals the per-tick total, with `0 <= extra_cycles < \|dt\|`; the product never exceeds the total, and a positive `dt` gives a non-negative per-slice budget |
| Timing.BudgetIsDivMod | src/main.c:172-173 | for positive `dt` the two numbers are exactly the quotient and remainder of the per-tick total by `dt` |
| Timing.BudgetExample | src/main.c:172-173 | 64 MHz at 60 ticks per second and `dt = 16` gives 66666 cycles per slice and 10 extra |
| Timing.SliceBudget | src/main.c:199-202 | the `cycles_left` slice i starts from, with the extra cycles on the last slice only; `Timing.ScheduledBeforeLast` and `Cpu.AllSlicesRun` state its use |
| Timing.Scheduled | src/main.c:199-202 | the cycles scheduled over the first n slices; `Timing.ScheduleCoversTick` states that all `dt` of them add up to the per-tick total |
| Timing.ScheduledBeforeLast | src/main.c:199-202 | every slice before the last gets exactly `cycles_per_tick` |
| Timing.ScheduleCoversTick | src/main.c:191-202 | the `dt` slices of a tick together schedule exactly `FOX32_CPU_HZ / TPS` cycles, also when `dt` exceeds that total |
| Timing.PacingDelay | src/main.c:150 | the delay fits an `int`, and it is at most one tick unless the iteration took more than 2^31 + 16 ms |
| Timing.PacingDelayIsRemainder | src/main.c:150-155 | for elapsed times up to 2^31 + 16 ms the delay is the time left of the tick, and the host sleeps exactly when the iteration finished early |
| Timing.PacingDelayAfterLongStall | src/main.c:150-152 | beyond that bound the unsigned subtraction wraps, so the host sleeps for a positive, very long delay |
| Timing.UptimeAfter | src/main.c:191-195 | the uptime register after n slices stays a uint32_t |
| Timing.UptimeCountsSlices | src/main.c:191-195 | `rtc_uptime` advances by exactly the number of slices, modulo 2^32 |
| Timing.UptimeAfterAdds | src/main.c:191-195 | counting `a` slices and then `b` more leaves the uptime where counting `a + b` does |
| Cpu.Resume | src/main.c:205-207 | a resume never executes more than its budget; it consumes a scripted reply or runs the whole budget; a bus exit request is never withdrawn |
| Cpu.Recover | src/main.c:210 | recovery does not run guest code: pending replies, the halted flag and the exit request are unchanged |
| Cpu.RunSlice | src/main.c:204-216 | the slice loop as a reference definition; `Cpu.SliceOutcome`, `Cpu.RecoveredFaultsContinue`, `Cpu.LogsEveryFault`, `Cpu.FaultsLogged` and `Cpu.UnrecoverableFirstFault` state its contract, and `Host.Session.DriveSlice` is proved to compute it |
| Cpu.SliceOutcome | src/main.c:204-216 | a slice with a positive budget ends with no cycles left unless it is abandoned, and an abandoned slice leaves cycles unused; a zero budget does nothing; faults are logged only in debug mode, and only appended |
| Cpu.RecoveredFaultsContinue | src/main.c:204-216 | when `fox32_recover` repairs every fault, no slice is abandoned and each slice uses its whole budget: a repaired fault continues the same slice |
| Cpu.LogsEveryFault | src/main.c:204-216 | a slice consumes a prefix of the processor's replies, and in debug mode the log gains exactly the faults among them, repaired or not, in order; outside debug mode it gains nothing |
| Cpu.FaultsLogged | src/main.c:207-209 | every entry a slice adds to the log is a fault, and in debug mode an abandoned slice's last log entry is a fault |
| Cpu.UnrecoverableFirstFault | src/main.c:207-212 | a slice whose first resume faults beyond recovery is abandoned with its whole budget left |
| Cpu.RunSlices | src/main.c:191-217 | the tick's `for` loop as a reference definition; `Cpu.AllSlicesRun`, `Cpu.TickUsesFullBudget` and `Cpu.TickKeepsRequests` state its contract, and `Host.Session.RunTick` is proved to compute it |
| Cpu.AllSlicesRun | src/main.c:191-202 | a tick runs exactly `dt` slices (none for a negative `dt`), and slice k starts from its own scheduled budget whatever earlier slices did |
| Cpu.SliceConsistent | src/main.c:204-216 | a slice uses between 0 and its budget, and all of it exactly when it was not abandoned |
| Cpu.ReportsConsistent | src/main.c:191-216 | the same holds for every slice of a tick |
| Cpu.BudgetsFollowSchedule | src/main.c:191-202 | the budgets of the slices that ran add up to the schedule |
| Cpu.TotalsOfConsistent | src/main.c:191-216 | summing slice reports: the cycles used never exceed the budget, with equality exactly when no slice was abandoned |
| Cpu.TickUsesFullBudget | src/main.c:191-216 | for a positive `dt`, the cycles charged against `cycles_left` over a tick add up to at most `FOX32_CPU_HZ / TPS`, and to exactly that when no slice was abandoned (the abandoning call's own `executed` count is never charged) |
| Cpu.TickKeepsRequests | src/main.c:191-216 | over a whole tick the fault log is only appended to, and not at all outside debug mode, and a bus exit request stays set |
| Args.ParseFrom | src/main.c:71-107 | the `argv` loop from argument i as a reference definition; `Args.ContinuesIffWellFormed`, `Args.ExitCodeOfBreaker`, `Args.RegistersDisksInOrder`, `Args.LoadsRomsInOrder` and `Args.SetsFlagsRead` state its contract |
| Args.Parse | src/main.c:69-107 | the loop from `argv[1]`; `Args.DisksInCommandLineOrder` states it from the default options, and `Host.Session.ParseArgs` is proved to compute it |
| Args.ContinuesIffWellFormed | src/main.c:71-107 | the loop goes on exactly when the command line is flags and `--disk`/`--rom` options each with an operand |
| Args.ExitCodeOfBreaker | src/main.c:72-106 | outside that grammar the exit code is 0 when the first argument that breaks it is `--help`, and 1 when it is an unknown argument or a `--disk`/`--rom` with nothing after it |
| Args.RegistersDisksInOrder | src/main.c:69-90 | an accepted command line registers one disk per `--disk` option, in command-line order, numbered on from the current `disk_id` |
| Args.LoadsRomsInOrder | src/main.c:91-98 | an accepted command line loads one ROM per `--rom` option, in command-line order |
| Args.SetsFlagsRead | src/main.c:99-103 | on an accepted command line each flag is set exactly when it is read as an option or was set before |
| Args.DisksInCommandLineOrder | src/main.c:69-90 | from the defaults, disk k is the k-th `--disk` operand and gets index k |
| Args.FlagsOnly | src/main.c:99-103 | `--debug` and `--headless` only set their flags: each flag is set exactly when it appears, and nothing is registered |
| Args.TwoDisksExample | src/main.c:83-90 | `--disk a.img --disk b.img` registers disks 0 and 1 in that order |
| Args.HelpFirst | src/main.c:72-82 | a leading `--help` returns 0 at once, whatever follows |
| Args.DiskOperandAccepted | src/main.c:83-86 | the operand after `--disk` is not read as an option |
| Args.ExitOneExamples | src/main.c:91-106 | an unknown option exits with 1 before a later `--help` is read, and so does a trailing `--rom` |
| Host.Session.constructor | src/main.c:41-65 | the globals start zeroed, the processor not halted, debug off and nothing registered |
| Host.Session.ParseArgs | src/main.c:69-107 | the `argv` loop with its `disk_id` counter computes exactly the reference parse |
| Host.Session.Resume | src/main.c:207 | the stateful `fox32_resume` call agrees with `Cpu.Resume` |
| Host.Session.Recover | src/main.c:210 | the stateful `fox32_recover` call agrees with `Cpu.Recover` |
| Host.Session.Raise | src/main.c:222 | `fox32_raise` appends the vector to the raised interrupts |
| Host.Session.DriveSlice | src/main.c:204-216 | the inner `while` loop, with its `break`, ends in the state and with the `cycles_left` that `Cpu.RunSlice` defines |
| Host.Session.RunSliceAt | src/main.c:195-216 | one pass of the `for`: uptime + 1 (wrapping), `rtc_time` read, then the slice driven with its scheduled budget |
| Host.Session.RunTick | src/main.c:191-217 | the `for` loop leaves the processor and fault log as `Cpu.RunSlices` defines, and advances the uptime once per slice |
| Host.Session.VsyncTick | src/main.c:219-224 | on the `TPF` cadence it draws unless headless, raises VSYNC and clears `vm.halted`; otherwise nothing changes |
| Host.Session.MainLoop | src/main.c:161-229 | one `main_loop` call: `dt` from the clock, the whole tick per the reference definitions, `tick_start` reset, VSYNC and unhalt, `done` from the event poll, and `ticks` + 1 |
| Host.Session.Iterate | src/main.c:147-155 | one pull-loop iteration: the uptime and `rtc_time` updates, VSYNC and the draw of the tick, the fault log only growing (and only in debug mode), a bus exit request never withdrawn, the processor left running after a frame boundary; then `tick_end` read and one sleep exactly when the pacing delay is positive |
| Host.Session.PullLoop | src/main.c:146-156 | the loop runs no iteration when `done` or the bus exit request is already set; otherwise it runs until one is set or the readings run out, never past an iteration whose event poll set `done`; it counts one tick per iteration, raises one VSYNC per iteration, draws once per iteration unless headless, only appends to the fault log (and only in debug mode), leaves the clock fields at the last iteration's readings, leaves `rtc_uptime` and `rtc_time` as `Host.UptimeOver` and `Host.RtcTimeOver` define from the entry state, and sleeps as `Sleeps` defines |
| Host.Session.IterateAt | src/main.c:146-155 | iteration `n` of the pull loop, stated against the loop's entry state: from the clock, RTC, tick count, sleeps, VSYNCs and draws of `n` iterations (`Host.Session.Ran`) to those of `n + 1`, with `done` and `tick_end` from this iteration's readings, the fault log only growing (and only in debug mode) and a bus exit request never withdrawn |
| Host.Session.OpenWindow | src/main.c:111-130 | unless headless, `main` fails when the video subsystem cannot start and otherwise draws the first frame; headless it neither fails nor draws |
| Host.Session.Start | src/main.c:60-158 | from the default options, `main` returns the parse's exit code if it has one, 1 if the window system cannot start (drawing and raising nothing in both cases), and otherwise 0 after the pull loop, with its iteration count, exit condition, clock fields and sleeps, one VSYNC per iteration, the start-up draw plus one per iteration unless headless, a fault log that only grew, and `rtc_uptime` and `rtc_time` as `Host.UptimeOver` and `Host.RtcTimeOver` define from the start-up clock reading; on the two early returns the clock, RTC, processor, fault log, draws, interrupts, `done`, tick count and sleeps are all unchanged; `Valid()` holds at the end; the options are those the parse computed |
| Host.UptimeOver | src/main.c:146-195 | `rtc_uptime` after `n` pull-loop iterations, each running the slices its `dt` (from the previous iteration's `tick_start`) asks for; it stays a uint32_t |
| Host.UptimeCountsIterations | src/main.c:146-195 | across iterations `rtc_uptime` advances by the total number of slices they ran, modulo 2^32 |
| Host.RtcTimeIsLastWall | src/main.c:146-196 | `rtc_time` keeps its entry value until an iteration runs a slice, and after that holds the `time(NULL)` reading of an iteration that ran one |
| Host.SleepOf | src/main.c:150-153 | an iteration asks for at most one sleep, for a positive time of at most one tick unless it stalled more than 2^31 + 16 ms |
| Host.Sleeps | src/main.c:146-156 | n iterations ask for at most n sleeps, each for a positive time |
| Host.SleepsWithinTick | src/main.c:146-156 | without stalls beyond 2^31 + 16 ms, the host sleeps once per iteration that finished early, and each sleep is at most one tick |

## Left out

- The adaptive budget (`CYCLE_AUTOADJUST`, src/main.c:175-187 and 192-193) is not modelled. It is floating-point arithmetic and is compiled only for the browser build.
- SDL is not modelled. `SDL_GetTicks`, `time(NULL)`, `ScreenProcessEvents` and the `SDL_Init` result are inputs. `ScreenDraw` and `SDL_Delay` are recorded only in the ghost fields `draws` and `sleeps`. The window and cursor set-up calls (`SDL_ShowCursor`, `ScreenCreate`, `ScreenInit`) are omitted.
- File and device I/O are not modelled: `load_rom`, `new_disk`, `serial_init`, the ROM `memcpy`, `fox32_init` and the `io_read`/`io_write` hooks. A parse records only the disks (path and index) and the ROM file names it would hand over.
- The help and error messages printed to stderr are not modelled. For faults, `puts(fox32_strerr(error))` is modelled as appending the fault to `faultLog`.
- The browser main-loop registration and cancellation (src/main.c:142-144 and 162-166) are not modelled.
- The processor's semantics are not modelled; `cpu.c` and `bus.c` are not part of this model. `fox32_resume` and `fox32_recover` answer from scripts given as input:
  - `fox32_resume` never reports more executed cycles than the budget. This bound is assumed, not taken from the processor's source. Under it, the unsigned `cycles_left -= executed` is exact.
  - Once the resume script is used up, the processor runs every budget in full without a fault.
  - Once the recovery script is used up, every fault is unrecoverable.
  - Because every reply is consumed and the script is finite, the slice loop always terminates. A processor that answers OK with 0 cycles executed forever cannot be represented, and on such a processor the loop at src/main.c:204 would never end.
- `ticks` is an unbounded counter. The C `int` would overflow, which is undefined behaviour, after 2^31 ticks (about a year at 60 ticks per second).
- `rtc_time` is read once per tick: `wall` is the same `time(NULL)` value for every slice of that tick.
- Host.Session.PullLoop: the loop is given the host readings of finitely many iterations, so a run that never sets `done` or the exit request is cut off after the last frame.
- Host.Session.Iterate: the contract states the processor and the fault log only through `Cpu.TickKeepsRequests` (log grows, exit request kept) and the halt flag cleared at a frame boundary; the exact state after the tick is what `Host.Session.MainLoop` states, and carrying that term into the pull loop's proof costs more than the verifier's resource limit allows.
- Host.Session.PullLoop: the contract does not state the processor state after each iteration. As a result, it proves that no iteration runs after one whose event poll set `done`, but not the same for the bus exit request.
- Host.Session.Start: `vm.halted = false` and `vm.debug = false` are the constructor's state, not steps of `Start`.

=== FILE: args.dfy ===
/** The command-line loop of `main`: `--help`, `--disk DISK`, `--rom ROM`,
    `--debug`, `--headless`. Opening the disk and ROM files is not part of
    this model; a parse records which files would be opened, in order. */
module Args {

  /** A `new_disk(path, disk_id)` call: the disk image and its index. */
  datatype Disk = Disk(path: string, id: nat)

  /** What the loop sets: `vm.debug`, `vm.headless`, the disks registered
      and the ROM files loaded. */
  datatype Options = Options(debug: bool, headless: bool, disks: seq<Disk>, roms: seq<string>)

  /** Whether `main` goes on past the loop or returns with an exit code. */
  datatype Outcome = Continue | Exit(code: int)

  datatype Parsed = Parsed(outcome: Outcome, opts: Options)

  /** The options `main` starts from. */
  function Defaults(): Options {
    Options(false, false, [], [])
  }

  predicate TakesOperand(arg: string) {
    arg == "--disk" || arg == "--rom"
  }

  predicate IsFlag(arg: string) {
    arg == "--debug" || arg == "--headless"
  }

  /** The loop from argument `i` on. `disk_id` is the number of disks
      registered so far. */
  function ParseFrom(argv: seq<string>, i: nat, opts: Options): (p: Parsed)
    decreases |argv| - i
  {
    if i >= |argv| then Parsed(Continue, opts)
    else if argv[i] == "--help" then Parsed(Exit(0), opts)
    else if argv[i] == "--disk" then
      if i + 1 < |argv| then
        ParseFrom(argv, i + 2, opts.(disks := opts.disks + [Disk(argv[i + 1], |opts.disks|)]))
      else Parsed(Exit(1), opts)
    else if argv[i] == "--rom" then
      if i + 1 < |argv| then
        ParseFrom(argv, i + 2, opts.(roms := opts.roms + [argv[i + 1]]))
      else Parsed(Exit(1), opts)
    else if argv[i] == "--debug" then ParseFrom(argv, i + 1, opts.(debug := true))
    else if argv[i] == "--headless" then ParseFrom(argv, i + 1, opts.(headless := true))
    else Parsed(Exit(1), opts)
  }

  /** The whole loop: `argv[0]` is the program name and is skipped. */
  function Parse(argv: seq<string>, opts: Options): Parsed {
    ParseFrom(argv, 1, opts)
  }

  /** The command lines the loop accepts, read from the option it is at:
      nothing more, a flag followed by an accepted rest, or `--disk` or
      `--rom` with its operand followed by an accepted rest. */
  predicate WellFormed(s: seq<string>)
    decreases |s|
  {
    s == []
    || (IsFlag(s[0]) && WellFormed(s[1..]))
    || (TakesOperand(s[0]) && |s| >= 2 && WellFormed(s[2..]))
  }

  /** The first argument read as an option that breaks the grammar: `--help`,
      an unknown argument, or `--disk`/`--rom` with nothing after it. */
  function Breaker(s: seq<string>): string
    requires !WellFormed(s)
    decreases |s|
  {
    if IsFlag(s[0]) then Breaker(s[1..])
    else if TakesOperand(s[0]) && |s| >= 2 then Breaker(s[2..])
    else s[0]
  }

  /** The operands of the options `opt` read along the grammar, in
      command-line order. */
  function OperandsOf(opt: string, s: seq<string>): seq<string>
    decreases |s|
  {
    if s == [] then []
    else if TakesOperand(s[0]) && |s| >= 2 then
      (if s[0] == opt then [s[1]] else []) + OperandsOf(opt, s[2..])
    else OperandsOf(opt, s[1..])
  }

  /** Whether `opt` is read as an option somewhere along the grammar (an
      operand equal to `opt` does not count). */
  predicate Mentions(opt: string, s: seq<string>)
    decreases |s|
  {
    s != [] &&
    (s[0] == opt
     || (if TakesOperand(s[0]) && |s| >= 2 then Mentions(opt, s[2..]) else Mentions(opt, s[1..])))
  }

  /** The disks registered for `paths`, numbered on from `from`. */
  function Numbered(paths: seq<string>, from: nat): seq<Disk> {
    seq(|paths|, k requires 0 <= k < |paths| => Disk(paths[k], from + k))
  }

  lemma NumberedCons(x: string, paths: seq<string>, from: nat)
    ensures [Disk(x, from)] + Numbered(paths, from + 1) == Numbered([x] + paths, from)
  {
    var l, r := [Disk(x, from)] + Numbered(paths, from + 1), Numbered([x] + paths, from);
    assert |l| == |r|;
    forall k | 0 <= k < |l| ensures l[k] == r[k] {
      if k > 0 {
        assert l[k] == Numbered(paths, from + 1)[k - 1];
      }
    }
  }

  /** The loop goes on exactly when the rest of the command line is in the
      grammar. */
  lemma {:induction false} ContinuesIffWellFormed(argv: seq<string>, i: nat, opts: Options)
    requires i <= |argv|
    ensures ParseFrom(argv, i, opts).outcome == Continue <==> WellFormed(argv[i..])
    decreases |argv| - i
  {
    var s := argv[i..];
    if i < |argv| {
      assert s[0] == argv[i] && s[1..] == argv[i + 1..];
      if TakesOperand(argv[i]) && i + 1 < |argv| {
        assert s[2..] == argv[i + 2..];
        if argv[i] == "--disk" {
          ContinuesIffWellFormed(argv, i + 2, opts.(disks := opts.disks + [Disk(argv[i + 1], |opts.disks|)]));
        } else {
          ContinuesIffWellFormed(argv, i + 2, opts.(roms := opts.roms + [argv[i + 1]]));
        }
      } else if argv[i] == "--debug" {
        ContinuesIffWellFormed(argv, i + 1, opts.(debug := true));
      } else if argv[i] == "--headless" {
        ContinuesIffWellFormed(argv, i + 1, opts.(headless := true));
      }
    }
  }

  /** On an accepted command line the loop registers one disk per `--disk`
      option, in command-line order and numbered on from the disks already
      registered. */
  lemma {:induction false} RegistersDisksInOrder(argv: seq<string>, i: nat, opts: Options)
    requires i <= |argv| && WellFormed(argv[i..])
    ensures ParseFrom(argv, i, opts).opts.disks
      == opts.disks + Numbered(OperandsOf("--disk", argv[i..]), |opts.disks|)
    decreases |argv| - i
  {
    var s := argv[i..];
    if i < |argv| {
      assert s[0] == argv[i] && s[1..] == argv[i + 1..];
      var n := |opts.disks|;
      if TakesOperand(argv[i]) {
        assert |s| >= 2 && s[2..] == argv[i + 2..] && s[1] == argv[i + 1];
        var rest := OperandsOf("--disk", argv[i + 2..]);
        if argv[i] == "--disk" {
          var d := Disk(argv[i + 1], n);
          var opts' := opts.(disks := opts.disks + [d]);
          assert ParseFrom(argv, i, opts) == ParseFrom(argv, i + 2, opts');
          RegistersDisksInOrder(argv, i + 2, opts');
          NumberedCons(argv[i + 1], rest, n);
          assert OperandsOf("--disk", s) == [argv[i + 1]] + rest;
          assert opts.disks + [d] + Numbered(rest, n + 1) == opts.disks + ([d] + Numbered(rest, n + 1));
        } else {
          var opts' := opts.(roms := opts.roms + [argv[i + 1]]);
          assert ParseFrom(argv, i, opts) == ParseFrom(argv, i + 2, opts');
          RegistersDisksInOrder(argv, i + 2, opts');
          assert OperandsOf("--disk", s) == rest;
        }
      } else {
        assert IsFlag(argv[i]) && WellFormed(argv[i + 1..]);
        var opts' := if argv[i] == "--debug" then opts.(debug := true) else opts.(headless := true);
        assert ParseFrom(argv, i, opts) == ParseFrom(argv, i + 1, opts');
        RegistersDisksInOrder(argv, i + 1, opts');
        assert OperandsOf("--disk", s) == OperandsOf("--disk", argv[i + 1..]);
      }
    }
  }

  /** On an accepted command line the loop loads one ROM file per `--rom`
      option, in command-line order. */
  lemma {:induction false} LoadsRomsInOrder(argv: seq<string>, i: nat, opts: Options)
    requires i <= |argv| && WellFormed(argv[i..])
    ensures ParseFrom(argv, i, opts).opts.roms == opts.roms + OperandsOf("--rom", argv[i..])
    decreases |argv| - i
  {
    var s := argv[i..];
    if i < |argv| {
      assert s[0] == argv[i] && s[1..] == argv[i + 1..];
      if TakesOperand(argv[i]) {
        assert s[2..] == argv[i + 2..] && s[1] == argv[i + 1];
        if argv[i] == "--disk" {
          LoadsRomsInOrder(argv, i + 2, opts.(disks := opts.disks + [Disk(argv[i + 1], |opts.disks|)]));
        } else {
          var rest := OperandsOf("--rom", argv[i + 2..]);
          LoadsRomsInOrder(argv, i + 2, opts.(roms := opts.roms + [argv[i + 1]]));
          assert OperandsOf("--rom", s) == [argv[i + 1]] + rest;
          assert opts.roms + [argv[i + 1]] + rest == opts.roms + ([argv[i + 1]] + rest);
        }
      } else if argv[i] == "--debug" {
        LoadsRomsInOrder(argv, i + 1, opts.(debug := true));
      } else {
        LoadsRomsInOrder(argv, i + 1, opts.(headless := true));
      }
    }
  }

  /** On an accepted command line each flag ends up set exactly when it is
      read as an option or was already set. */
  lemma {:induction false} SetsFlagsRead(argv: seq<string>, i: nat, opts: Options)
    requires i <= |argv| && WellFormed(argv[i..])
    ensures var p := ParseFrom(argv, i, opts);
      (p.opts.debug <==> opts.debug || Mentions("--debug", argv[i..]))
      && (p.opts.headless <==> opts.headless || Mentions("--headless", argv[i..]))
    decreases |argv| - i
  {
    var s := argv[i..];
    if i < |argv| {
      assert s[0] == argv[i] && s[1..] == argv[i + 1..];
      if TakesOperand(argv[i]) {
        assert s[2..] == argv[i + 2..];
        if argv[i] == "--disk" {
          SetsFlagsRead(argv, i + 2, opts.(disks := opts.disks + [Disk(argv[i + 1], |opts.disks|)]));
        } else {
          SetsFlagsRead(argv, i + 2, opts.(roms := opts.roms + [argv[i + 1]]));
        }
      } else if argv[i] == "--debug" {
        SetsFlagsRead(argv, i + 1, opts.(debug := true));
      } else {
        SetsFlagsRead(argv, i + 1, opts.(headless := true));
      }
    }
  }

  /** A command line outside the grammar makes `main` return 0 when the
      argument that breaks it is `--help`, and 1 otherwise: for an unknown
      argument, or for `--disk`/`--rom` with nothing after it. */
  lemma {:induction false} ExitCodeOfBreaker(argv: seq<string>, i: nat, opts: Options)
    requires i <= |argv| && !WellFormed(argv[i..])
    ensures ParseFrom(argv, i, opts).outcome == Exit(if Breaker(argv[i..]) == "--help" then 0 else 1)
    decreases |argv| - i
  {
    var s := argv[i..];
    assert s[0] == argv[i] && s[1..] == argv[i + 1..];
    if TakesOperand(argv[i]) && i + 1 < |argv| {
      assert s[2..] == argv[i + 2..];
      if argv[i] == "--disk" {
        ExitCodeOfBreaker(argv, i + 2, opts.(disks := opts.disks + [Disk(argv[i + 1], |opts.disks|)]));
      } else {
        ExitCodeOfBreaker(argv, i + 2, opts.(roms := opts.roms + [argv[i + 1]]));
      }
    } else if argv[i] == "--debug" {
      ExitCodeOfBreaker(argv, i + 1, opts.(debug := true));
    } else if argv[i] == "--headless" {
      ExitCodeOfBreaker(argv, i + 1, opts.(headless := true));
    }
  }

  /** From the defaults, an accepted command line numbers its disks 0, 1,
      2, ... in the order of the `--disk` options, one per option, each with
      the path given after its option. */
  lemma DisksInCommandLineOrder(argv: seq<string>)
    requires |argv| >= 1 && WellFormed(argv[1..])
    ensures var d := Parse(argv, Defaults()).opts.disks;
      |d| == |OperandsOf("--disk", argv[1..])|
      && forall k :: 0 <= k < |d| ==> d[k] == Disk(OperandsOf("--disk", argv[1..])[k], k)
  {
    RegistersDisksInOrder(argv, 1, Defaults());
  }

  /** A command line made only of `--debug` and `--headless` goes on, with
      each flag set exactly when it appears (or was already set), and
      registers nothing. */
  lemma {:induction false} FlagsOnly(argv: seq<string>, i: nat, opts: Options)
    requires i <= |argv|
    requires forall j :: i <= j < |argv| ==> IsFlag(argv[j])
    ensures var p := ParseFrom(argv, i, opts);
      p.outcome == Continue
      && p.opts.disks == opts.disks && p.opts.roms == opts.roms
      && (p.opts.debug <==> opts.debug || "--debug" in argv[i..])
      && (p.opts.headless <==> opts.headless || "--headless" in argv[i..])
    decreases |argv| - i
  {
    if i < |argv| {
      var o := if argv[i] == "--debug" then opts.(debug := true) else opts.(headless := true);
      FlagsOnly(argv, i + 1, o);
      assert argv[i..] == [argv[i]] + argv[i + 1..];
    }
  }

  /** `--disk a.img --disk b.img` registers `a.img` as disk 0 and `b.img`
      as disk 1 and goes on. */
  lemma TwoDisksExample()
    ensures Parse(["fox32", "--disk", "a.img", "--disk", "b.img"], Defaults())
      == Parsed(Continue, Options(false, false, [Disk("a.img", 0), Disk("b.img", 1)], []))
  {
  }

  /** `--help` returns 0 at once, whatever follows it. */
  lemma HelpFirst(argv: seq<string>, opts: Options)
    requires |argv| >= 2 && argv[1] == "--help"
    ensures Parse(argv, opts) == Parsed(Exit(0), opts)
  {
  }
  /** An operand is not read as an option: `--disk a.img` is accepted. */
  lemma DiskOperandAccepted()
    ensures Parse(["fox32", "--disk", "a.img"], Defaults())
      == Parsed(Continue, Options(false, false, [Disk("a.img", 0)], []))
  {
  }

  /** An unknown option ends the loop with 1 before a later `--help` is
      read, and so does a trailing `--rom`. */
  lemma ExitOneExamples()
    ensures Parse(["fox32", "-x", "--help"], Defaults()).outcome == Exit(1)
    ensures Parse(["fox32", "--debug", "--rom"], Defaults()).outcome == Exit(1)
  {
  }
}

=== FILE: cint.dfy ===
/** C integer semantics used by the host driver: 32-bit unsigned wrap-around
    (SDL tick counts, the RTC uptime register), the conversion of an unsigned
    value to a 32-bit `int`, and C's division that rounds toward zero. */
module CInt {

  const U32Modulus: int := 0x1_0000_0000
  const IntMin: int := -0x8000_0000
  const IntMax: int := 0x7FFF_FFFF

  /** A value of type uint32_t. */
  predicate IsU32(x: int) {
    0 <= x < U32Modulus
  }

  /** A value of a 32-bit `int`. */
  predicate IsInt(x: int) {
    IntMin <= x <= IntMax
  }

  function Abs(x: int): (r: nat)
    ensures r == x || r == -x
  {
    if x < 0 then -x else x
  }

  /** `a - b` on uint32_t operands: the one uint32_t value congruent to the
      mathematical difference modulo 2^32. */
  function U32Sub(a: int, b: int): (r: int)
    requires IsU32(a) && IsU32(b)
    ensures IsU32(r)
    ensures (a - b - r) % U32Modulus == 0
    ensures a >= b ==> r == a - b
  {
    (a - b) % U32Modulus
  }

  /** `x + 1` on a uint32_t: wraps from 2^32 - 1 back to 0. */
  function U32Inc(x: int): (r: int)
    requires IsU32(x)
    ensures IsU32(r)
    ensures (x + 1 - r) % U32Modulus == 0
    ensures x + 1 < U32Modulus ==> r == x + 1
  {
    (x + 1) % U32Modulus
  }

  /** Assignment of a uint32_t value to an `int`: the one 32-bit `int`
      congruent to it modulo 2^32 (two's complement, as gcc and clang define
      this implementation-defined conversion). */
  function ToInt(x: int): (r: int)
    requires IsU32(x)
    ensures IsInt(r)
    ensures (x - r) % U32Modulus == 0
  {
    if x <= IntMax then x else x - U32Modulus
  }

  /** C's `a / b` for a non-negative dividend: the quotient rounded toward
      zero, so the remainder `a - q * b` is non-negative and smaller than
      `|b|` whatever the sign of `b`. */
  function TruncDiv(a: int, b: int): (q: int)
    requires a >= 0 && b != 0
    ensures 0 <= a - q * b < Abs(b)
  {
    if b > 0 then a / b else -(a / -b)
  }
}

=== FILE: cpu.dfy ===
/** The emulated processor as the host driver sees it, and what one tick of
    `main_loop` does with it: the slice-driving loop around `fox32_resume`
    and `fox32_recover`.

    The processor's instruction semantics are not part of this model. Its
    answers are inputs: a script of the replies `fox32_resume` gives, one per
    call, and of the results `fox32_recover` gives. Once a script is used up
    the processor runs every budget in full without a fault, and every fault
    is unrecoverable. */
module Cpu {
  import opened Timing

  /** `fox32_err_t`: `FOX32_ERR_OK` or a fault code. */
  datatype Status = Ok | Fault(code: nat)

  /** Interrupt vectors the driver raises itself. */
  datatype Interrupt = Vsync

  /** One answer of `fox32_resume`: the error it returns, the count it
      stores into `executed`, the halted flag it leaves, and whether the
      guest wrote the bus shutdown request while running. */
  datatype Reply = Reply(status: Status, executed: nat, halted: bool, requestsExit: bool)

  /** The processor and bus state the driver can observe. */
  datatype CpuState = CpuState(
    resumes: seq<Reply>,
    recovers: seq<Status>,
    halted: bool,
    exitRequested: bool)

  datatype Step = Step(status: Status, executed: nat, after: CpuState)

  /** `fox32_resume(&vm, budget, &executed)`: never executes more than the
      budget; each call consumes a scripted reply or runs the whole budget;
      a bus shutdown request, once made, stays made. */
  function Resume(m: CpuState, budget: nat): (s: Step)
    ensures s.executed <= budget
    ensures |s.after.resumes| < |m.resumes| || (s.status == Ok && s.executed == budget && s.after == m)
    ensures s.after.recovers == m.recovers
    ensures m.exitRequested ==> s.after.exitRequested
  {
    if m.resumes == [] then Step(Ok, budget, m)
    else
      var r := m.resumes[0];
      Step(r.status, if r.executed <= budget then r.executed else budget,
           m.(resumes := m.resumes[1..], halted := r.halted,
              exitRequested := m.exitRequested || r.requestsExit))
  }

  /** `fox32_recover(&vm, error)`: either repairs the fault (returns `Ok`)
      or returns a fault; it does not run guest code. */
  function Recover(m: CpuState, err: Status): (r: (Status, CpuState))
    ensures r.1.resumes == m.resumes && r.1.halted == m.halted
    ensures r.1.exitRequested == m.exitRequested
    ensures |r.1.recovers| <= |m.recovers|
  {
    if m.recovers == [] then (err, m)
    else (m.recovers[0], m.(recovers := m.recovers[1..]))
  }

  /** The outcome of one millisecond slice: the final `cycles_left`, whether
      an unrecoverable fault cut the slice short, the processor afterwards,
      and the faults printed so far in debug mode. */
  datatype SliceResult = SliceResult(left: int, abandoned: bool, after: CpuState, log: seq<Status>)

  /** `while (cycles_left > 0) { ... }`: resume with what is left; on a fault
      print it in debug mode (appending it to `log`) and recover; an
      unrecoverable fault breaks out (its partial count is not subtracted);
      otherwise subtract `executed`. */
  function RunSlice(cyclesLeft: int, m: CpuState, debug: bool, log: seq<Status>): (r: SliceResult)
    decreases |m.resumes|, if cyclesLeft > 0 then cyclesLeft else 0
  {
    if cyclesLeft <= 0 then SliceResult(cyclesLeft, false, m, log)
    else
      var s := Resume(m, cyclesLeft);
      if s.status == Ok then
        RunSlice(cyclesLeft - s.executed, s.after, debug, log)
      else
        var logged := if debug then log + [s.status] else log;
        var (status, m') := Recover(s.after, s.status);
        if status != Ok then
          SliceResult(cyclesLeft, true, m', logged)
        else
          RunSlice(cyclesLeft - s.executed, m', debug, logged)
  }

  /** A slice with a positive budget ends with nothing left unless it is
      abandoned, and an abandoned slice always leaves cycles unused; a slice
      with no budget does nothing. Faults are only ever added to the log,
      and only in debug mode; a bus exit request is never withdrawn. */
  lemma {:induction false} SliceOutcome(cyclesLeft: int, m: CpuState, debug: bool, log: seq<Status>)
    ensures var r := RunSlice(cyclesLeft, m, debug, log);
      (cyclesLeft <= 0 ==> r == SliceResult(cyclesLeft, false, m, log))
      && (cyclesLeft > 0 ==> 0 <= r.left <= cyclesLeft && (r.abandoned <==> r.left > 0))
      && log <= r.log && (!debug ==> r.log == log)
      && (m.exitRequested ==> r.after.exitRequested)
    decreases |m.resumes|, if cyclesLeft > 0 then cyclesLeft else 0
  {
    if cyclesLeft > 0 {
      var s := Resume(m, cyclesLeft);
      if s.status == Ok {
        SliceOutcome(cyclesLeft - s.executed, s.after, debug, log);
      } else {
        var logged := if debug then log + [s.status] else log;
        var (status, m') := Recover(s.after, s.status);
        if status == Ok {
          SliceOutcome(cyclesLeft - s.executed, m', debug, logged);
        }
      }
    }
  }

  /** A processor whose every fault `fox32_recover` repairs (a repair
      scripted for each pending reply) never has a slice abandoned: each
      repaired fault keeps the same slice going until its budget is used up. */
  lemma {:induction false} RecoveredFaultsContinue(cyclesLeft: int, m: CpuState, debug: bool, log: seq<Status>)
    requires |m.recovers| >= |m.resumes|
    requires forall k :: 0 <= k < |m.recovers| ==> m.recovers[k] == Ok
    ensures var r := RunSlice(cyclesLeft, m, debug, log);
      !r.abandoned && (cyclesLeft > 0 ==> r.left == 0)
    decreases |m.resumes|, if cyclesLeft > 0 then cyclesLeft else 0
  {
    if cyclesLeft > 0 {
      var s := Resume(m, cyclesLeft);
      if s.status == Ok {
        RecoveredFaultsContinue(cyclesLeft - s.executed, s.after, debug, log);
      } else {
        var logged := if debug then log + [s.status] else log;
        assert s.after.recovers == m.recovers && m.recovers[0] == Ok;
        var (status, m') := Recover(s.after, s.status);
        assert m'.recovers == m.recovers[1..];
        RecoveredFaultsContinue(cyclesLeft - s.executed, m', debug, logged);
      }
    }
  }

  /** The faults among a run of `fox32_resume` replies, in order. */
  function FaultsOf(replies: seq<Reply>): seq<Status> {
    if replies == [] then []
    else (if replies[0].status != Ok then [replies[0].status] else []) + FaultsOf(replies[1..])
  }

  /** What `LogsEveryFault` states, for a slice that consumed the replies
      `replies` and left `rest`, logging `added` after `log`. */
  ghost predicate LoggedPrefix(replies: seq<Reply>, rest: seq<Reply>, debug: bool, log: seq<Status>, added: seq<Status>) {
    var k := |replies| - |rest|;
    0 <= k <= |replies| && rest == replies[k..]
    && added == log + (if debug then FaultsOf(replies[..k]) else [])
  }

  lemma FaultsOfCons(x: Reply, replies: seq<Reply>)
    ensures FaultsOf([x] + replies) == (if x.status != Ok then [x.status] else []) + FaultsOf(replies)
  {
  }

  /** One more reply in front: its fault, if any, is logged first. */
  lemma ConsumeOne(x: Reply, replies: seq<Reply>, rest: seq<Reply>, debug: bool,
                   log: seq<Status>, logged: seq<Status>, added: seq<Status>)
    requires LoggedPrefix(replies, rest, debug, logged, added)
    requires logged == log + (if debug && x.status != Ok then [x.status] else [])
    ensures LoggedPrefix([x] + replies, rest, debug, log, added)
  {
    var j := |replies| - |rest|;
    var all, pre := [x] + replies, replies[..j];
    var h := if x.status != Ok then [x.status] else [];
    assert all[..j + 1] == [x] + pre;
    assert all[j + 1..] == replies[j..];
    FaultsOfCons(x, pre);
    if debug {
      assert log + h + FaultsOf(pre) == log + (h + FaultsOf(pre));
    }
  }

  /** In debug mode every fault the slice meets is printed, repaired or not:
      the slice consumes the first `k` scripted replies, and the log gains
      exactly the faults among them, in order; outside debug mode it gains
      nothing. */
  lemma {:induction false} LogsEveryFault(cyclesLeft: int, m: CpuState, debug: bool, log: seq<Status>)
    ensures var r := RunSlice(cyclesLeft, m, debug, log);
      LoggedPrefix(m.resumes, r.after.resumes, debug, log, r.log)
    decreases |m.resumes|, if cyclesLeft > 0 then cyclesLeft else 0
  {
    if cyclesLeft <= 0 || m.resumes == [] {
      NothingLogged(cyclesLeft, m, debug, log);
    } else {
      var s := Resume(m, cyclesLeft);
      if s.status == Ok {
        LogsEveryFault(cyclesLeft - s.executed, s.after, debug, log);
        LogsAfterOk(cyclesLeft, m, debug, log);
      } else {
        var logged := if debug then log + [s.status] else log;
        var rc := Recover(s.after, s.status);
        if rc.0 == Ok {
          LogsEveryFault(cyclesLeft - s.executed, rc.1, debug, logged);
        }
        LogsAfterFault(cyclesLeft, m, debug, log);
      }
    }
  }

  lemma NothingLogged(cyclesLeft: int, m: CpuState, debug: bool, log: seq<Status>)
    requires cyclesLeft <= 0 || m.resumes == []
    ensures var r := RunSlice(cyclesLeft, m, debug, log);
      LoggedPrefix(m.resumes, r.after.resumes, debug, log, r.log)
  {
  }

  /** A reply without a fault: nothing is logged for it. */
  lemma LogsAfterOk(cyclesLeft: int, m: CpuState, debug: bool, log: seq<Status>)
    requires cyclesLeft > 0 && m.resumes != [] && m.resumes[0].status == Ok
    requires var s := Resume(m, cyclesLeft);
      var r := RunSlice(cyclesLeft - s.executed, s.after, debug, log);
      LoggedPrefix(s.after.resumes, r.after.resumes, debug, log, r.log)
    ensures var r := RunSlice(cyclesLeft, m, debug, log);
      LoggedPrefix(m.resumes, r.after.resumes, debug, log, r.log)
  {
    var s := Resume(m, cyclesLeft);
    var r := RunSlice(cyclesLeft - s.executed, s.after, debug, log);
    assert RunSlice(cyclesLeft, m, debug, log) == r;
    assert m.resumes == [m.resumes[0]] + s.after.resumes;
    assert log + [] == log;
    ConsumeOne(m.resumes[0], s.after.resumes, r.after.resumes, debug, log, log, r.log);
  }

  /** A faulting reply: it is logged in debug mode, then the slice either
      ends (unrecoverable) or goes on from the recovered state. */
  lemma LogsAfterFault(cyclesLeft: int, m: CpuState, debug: bool, log: seq<Status>)
    requires cyclesLeft > 0 && m.resumes != [] && m.resumes[0].status != Ok
    requires var s := Resume(m, cyclesLeft);
      var logged := if debug then log + [s.status] else log;
      var rc := Recover(s.after, s.status);
      var r := RunSlice(cyclesLeft - s.executed, rc.1, debug, logged);
      rc.0 == Ok ==> LoggedPrefix(rc.1.resumes, r.after.resumes, debug, logged, r.log)
    ensures var r := RunSlice(cyclesLeft, m, debug, log);
      LoggedPrefix(m.resumes, r.after.resumes, debug, log, r.log)
  {
    var s := Resume(m, cyclesLeft);
    var x := m.resumes[0];
    var logged := if debug then log + [s.status] else log;
    var rc := Recover(s.after, s.status);
    assert m.resumes == [x] + rc.1.resumes && s.status == x.status;
    if rc.0 == Ok {
      var r := RunSlice(cyclesLeft - s.executed, rc.1, debug, logged);
      assert RunSlice(cyclesLeft, m, debug, log) == r;
      ConsumeOne(x, rc.1.resumes, r.after.resumes, debug, log, logged, r.log);
    } else {
      assert RunSlice(cyclesLeft, m, debug, log) == SliceResult(cyclesLeft, true, rc.1, logged);
      assert rc.1.resumes[..0] == [] && rc.1.resumes[0..] == rc.1.resumes;
      ConsumeOne(x, rc.1.resumes, rc.1.resumes, debug, log, logged, logged);
    }
  }

  /** The entries a slice adds to the log are all faults, and in debug
      mode an abandoned slice has printed a fault as its last entry. */
  lemma {:induction false} FaultsLogged(cyclesLeft: int, m: CpuState, debug: bool, log: seq<Status>)
    ensures var r := RunSlice(cyclesLeft, m, debug, log);
      |log| <= |r.log|
      && (forall k :: |log| <= k < |r.log| ==> r.log[k] != Ok)
      && (debug && r.abandoned ==> |r.log| > |log| && r.log[|r.log| - 1] != Ok)
    decreases |m.resumes|, if cyclesLeft > 0 then cyclesLeft else 0
  {
    if cyclesLeft > 0 {
      var s := Resume(m, cyclesLeft);
      if s.status == Ok {
        FaultsLogged(cyclesLeft - s.executed, s.after, debug, log);
      } else {
        var logged := if debug then log + [s.status] else log;
        var (status, m') := Recover(s.after, s.status);
        if status == Ok {
          var r := RunSlice(cyclesLeft - s.executed, m', debug, logged);
          FaultsLogged(cyclesLeft - s.executed, m', debug, logged);
          SliceOutcome(cyclesLeft - s.executed, m', debug, logged);
          assert forall k :: |log| <= k < |logged| ==> r.log[k] == logged[k];
        }
      }
    }
  }

  /** A slice whose very first resume faults beyond recovery runs nothing
      that counts against its budget. */
  lemma UnrecoverableFirstFault(cyclesLeft: int, m: CpuState, debug: bool)
    requires cyclesLeft > 0 && m.resumes != [] && m.resumes[0].status != Ok
    requires m.recovers == [] || m.recovers[0] != Ok
    ensures RunSlice(cyclesLeft, m, debug, []).abandoned
    ensures RunSlice(cyclesLeft, m, debug, []).left == cyclesLeft
  {
  }

  /** What one slice reports: its budget, its final `cycles_left` and
      whether it was abandoned. */
  datatype SliceReport = SliceReport(budget: int, left: int, abandoned: bool)

  datatype TickResult = TickResult(reports: seq<SliceReport>, after: CpuState, log: seq<Status>)

  /** `for (int i = 0; i < dt; i++)` from slice `i` on: every slice starts
      from its own `SliceBudget`, whatever happened in the slices before. */
  function RunSlices(b: Budget, dt: int, i: int, m: CpuState, debug: bool, log: seq<Status>): (t: TickResult)
    decreases dt - i
  {
    if i >= dt then TickResult([], m, log)
    else
      var s := RunSlice(SliceBudget(b, dt, i), m, debug, log);
      var rest := RunSlices(b, dt, i + 1, s.after, debug, s.log);
      TickResult([SliceReport(SliceBudget(b, dt, i), s.left, s.abandoned)] + rest.reports,
                 rest.after, rest.log)
  }

  /** One tick runs exactly `dt` slices (none for a non-positive `dt`), and
      slice `k` is given the budget `SliceBudget(b, dt, k)`: an abandoned
      slice does not stop or shrink the slices after it. */
  lemma {:induction false} AllSlicesRun(b: Budget, dt: int, i: int, m: CpuState, debug: bool, log: seq<Status>)
    requires 0 <= i
    ensures |RunSlices(b, dt, i, m, debug, log).reports| == if i < dt then dt - i else 0
    ensures forall k :: 0 <= k < |RunSlices(b, dt, i, m, debug, log).reports| ==>
              RunSlices(b, dt, i, m, debug, log).reports[k].budget == SliceBudget(b, dt, i + k)
    decreases dt - i
  {
    if i < dt {
      var s := RunSlice(SliceBudget(b, dt, i), m, debug, log);
      AllSlicesRun(b, dt, i + 1, s.after, debug, s.log);
    }
  }

  /** Over a whole tick, faults are only ever appended to the log, and only
      in debug mode, and a bus exit request is never withdrawn. */
  lemma {:induction false} TickKeepsRequests(b: Budget, dt: int, i: int, m: CpuState, debug: bool, log: seq<Status>)
    ensures var t := RunSlices(b, dt, i, m, debug, log);
      log <= t.log && (!debug ==> t.log == log)
      && (m.exitRequested ==> t.after.exitRequested)
    decreases dt - i
  {
    if i < dt {
      var s := RunSlice(SliceBudget(b, dt, i), m, debug, log);
      SliceOutcome(SliceBudget(b, dt, i), m, debug, log);
      TickKeepsRequests(b, dt, i + 1, s.after, debug, s.log);
    }
  }

  /** Cycles charged against a slice's `cycles_left` (`budget - cycles_left`).
      The `executed` count of the call that abandons the slice is never
      subtracted, so those cycles are not included. */
  function Used(r: SliceReport): int {
    r.budget - r.left
  }

  function TotalUsed(rs: seq<SliceReport>): int {
    if rs == [] then 0 else Used(rs[0]) + TotalUsed(rs[1..])
  }

  function TotalBudget(rs: seq<SliceReport>): int {
    if rs == [] then 0 else rs[0].budget + TotalBudget(rs[1..])
  }

  predicate NoneAbandoned(rs: seq<SliceReport>) {
    forall k :: 0 <= k < |rs| ==> !rs[k].abandoned
  }

  /** What every slice report satisfies: the slice used between 0 and its
      budget, and it left cycles unused exactly when it was abandoned. */
  predicate Consistent(r: SliceReport) {
    0 <= Used(r) <= r.budget && (Used(r) == r.budget <==> !r.abandoned)
  }

  /** A slice with a non-negative budget gives a consistent report. */
  lemma SliceConsistent(budget: int, m: CpuState, debug: bool, log: seq<Status>)
    requires budget >= 0
    ensures var r := RunSlice(budget, m, debug, log);
      Consistent(SliceReport(budget, r.left, r.abandoned))
  {
    SliceOutcome(budget, m, debug, log);
  }

  /** With non-negative budgets, every report of a tick is consistent. */
  lemma {:induction false} ReportsConsistent(b: Budget, dt: int, i: int, m: CpuState, debug: bool, log: seq<Status>)
    requires b.perSlice >= 0 && b.extra >= 0
    ensures forall k :: 0 <= k < |RunSlices(b, dt, i, m, debug, log).reports| ==>
              Consistent(RunSlices(b, dt, i, m, debug, log).reports[k])
    decreases dt - i
  {
    if i < dt {
      var budget := SliceBudget(b, dt, i);
      var s := RunSlice(budget, m, debug, log);
      var rest := RunSlices(b, dt, i + 1, s.after, debug, s.log).reports;
      SliceConsistent(budget, m, debug, log);
      ReportsConsistent(b, dt, i + 1, s.after, debug, s.log);
      var rs := RunSlices(b, dt, i, m, debug, log).reports;
      assert rs == [SliceReport(budget, s.left, s.abandoned)] + rest;
      forall k | 0 <= k < |rs| ensures Consistent(rs[k]) {
        if k > 0 {
          assert rs[k] == rest[k - 1];
        }
      }
    }
  }

  /** From slice `i` on, the budgets of a tick's reports add up to what
      `Scheduled` assigns to those slices. */
  lemma {:induction false} BudgetsFollowSchedule(b: Budget, dt: int, i: nat, m: CpuState, debug: bool, log: seq<Status>)
    requires i <= dt
    ensures TotalBudget(RunSlices(b, dt, i, m, debug, log).reports) == Scheduled(b, dt, dt) - Scheduled(b, dt, i)
    decreases dt - i
  {
    if i < dt {
      var s := RunSlice(SliceBudget(b, dt, i), m, debug, log);
      BudgetsFollowSchedule(b, dt, i + 1, s.after, debug, s.log);
    }
  }

  /** Reports that are each consistent use at most their total budget, and
      all of it exactly when none was abandoned. */
  lemma {:induction false} TotalsOfConsistent(rs: seq<SliceReport>)
    requires forall k :: 0 <= k < |rs| ==> Consistent(rs[k])
    ensures 0 <= TotalUsed(rs) <= TotalBudget(rs)
    ensures TotalUsed(rs) == TotalBudget(rs) <==> NoneAbandoned(rs)
  {
    if rs != [] {
      assert Consistent(rs[0]);
      TotalsOfConsistent(rs[1..]);
      assert NoneAbandoned(rs) <==> !rs[0].abandoned && NoneAbandoned(rs[1..]) by {
        if !rs[0].abandoned && NoneAbandoned(rs[1..]) {
          forall k | 0 < k < |rs| ensures !rs[k].abandoned {
            assert rs[k] == rs[1..][k - 1];
          }
        }
      }
    }
  }

  /** Over a whole tick with `dt > 0` the cycles charged against
      `cycles_left` add up to exactly `FOX32_CPU_HZ / TPS` when no fault is
      unrecoverable, and to strictly fewer as soon as one slice is abandoned
      (the abandoning call's own `executed` count is never charged); nothing
      abandoned is carried into a later slice or tick. */
  lemma TickUsesFullBudget(hz: nat, dt: int, m: CpuState, debug: bool, log: seq<Status>)
    requires dt > 0
    ensures var rs := RunSlices(ComputeBudget(hz, dt), dt, 0, m, debug, log).reports;
      TotalUsed(rs) <= PerTick(hz)
      && (TotalUsed(rs) == PerTick(hz) <==> NoneAbandoned(rs))
  {
    var b := ComputeBudget(hz, dt);
    BudgetSplitsTick(hz, dt);
    var rs := RunSlices(b, dt, 0, m, debug, log).reports;
    BudgetsFollowSchedule(b, dt, 0, m, debug, log);
    ReportsConsistent(b, dt, 0, m, debug, log);
    TotalsOfConsistent(rs);
    ScheduleCoversTick(hz, dt);
  }
}

=== FILE: host.dfy ===
/** The host driver's session: the globals of `main.c` (`vm`, `tick_start`,
    `tick_end`, `ticks`, `done`, `rtc_time`, `rtc_uptime`, the bus exit
    flag) as fields of one object, and `main_loop`, the pull loop and `main`
    as its methods. Clock readings, the wall-clock time, the result of
    polling window events and the processor's replies are inputs; drawing
    and sleeping are recorded in ghost fields. */
module Host {
  import opened CInt
  import opened Timing
  import opened Cpu
  import opened Args

  /** The host readings one pull-loop iteration takes: the two
      `SDL_GetTicks()` calls at the top of `main_loop`, `time(NULL)`, the
      result of `ScreenProcessEvents()`, and `SDL_GetTicks()` after
      `main_loop` returns. */
  datatype Frame = Frame(now: int, restart: int, wall: int, quit: bool, end: int)

  predicate ValidFrame(f: Frame) {
    IsU32(f.now) && IsU32(f.restart) && IsU32(f.end)
  }

  /** The fields the pull loop accounts for: the clock reading, the RTC
      registers, the tick count, and the sleeps, interrupts and draws so far. */
  datatype Snapshot = Snapshot(tickStart: int, uptime: int, rtc: int, ticks: int,
                               sleeps: seq<int>, raised: seq<Interrupt>, draws: int)

  /** The interrupts `n` ticks raise: one VSYNC per frame, and with one
      tick per frame that is one per tick. */
  function Vsyncs(n: nat): seq<Interrupt> {
    if n == 0 then [] else Vsyncs(n - 1) + [Vsync]
  }

  /** The `tick_start` that iteration `k` of the pull loop finds: the
      start-up reading for the first, the previous iteration's second
      reading after that. */
  function StartOf(start: int, frames: seq<Frame>, k: nat): int
    requires k < |frames|
  {
    if k == 0 then start else frames[k - 1].restart
  }

  /** The slices `main_loop` runs for frame `f` after `tick_start`: its
      `dt`, or none when `dt` reads as negative. */
  function SlicesIn(f: Frame, tickStart: int): nat {
    if !ValidFrame(f) || !IsU32(tickStart) then 0
    else
      var dt := ElapsedMs(f.now, tickStart);
      if dt > 0 then dt else 0
  }

  /** The slices iteration `k` of the pull loop runs. */
  function SlicesOf(start: int, frames: seq<Frame>, k: nat): nat
    requires k < |frames|
  {
    SlicesIn(frames[k], StartOf(start, frames, k))
  }

  /** `rtc_uptime` after the first `n` iterations. */
  function UptimeOver(uptime: int, start: int, frames: seq<Frame>, n: nat): (r: int)
    requires IsU32(uptime) && n <= |frames|
    ensures IsU32(r)
  {
    if n == 0 then uptime
    else UptimeAfter(UptimeOver(uptime, start, frames, n - 1), SlicesOf(start, frames, n - 1))
  }

  /** The slices the first `n` iterations run, in total. */
  function SlicesOver(start: int, frames: seq<Frame>, n: nat): nat
    requires n <= |frames|
  {
    if n == 0 then 0 else SlicesOver(start, frames, n - 1) + SlicesOf(start, frames, n - 1)
  }

  /** Across iterations the uptime register still counts slices: after `n`
      iterations it has advanced by their total, modulo 2^32, whatever the
      gaps between the clock readings. */
  lemma {:induction false} UptimeCountsIterations(uptime: int, start: int, frames: seq<Frame>, n: nat)
    requires IsU32(uptime) && n <= |frames|
    ensures UptimeOver(uptime, start, frames, n) == UptimeAfter(uptime, SlicesOver(start, frames, n))
    ensures UptimeOver(uptime, start, frames, n) == (uptime + SlicesOver(start, frames, n)) % U32Modulus
  {
    if n > 0 {
      UptimeCountsIterations(uptime, start, frames, n - 1);
      UptimeAfterAdds(uptime, SlicesOver(start, frames, n - 1), SlicesOf(start, frames, n - 1));
    }
    UptimeCountsSlices(uptime, SlicesOver(start, frames, n));
  }

  /** `rtc_time` after the first `n` iterations: the wall-clock reading of
      the last iteration that ran a slice. */
  function RtcTimeOver(rtc: int, start: int, frames: seq<Frame>, n: nat): int
    requires n <= |frames|
  {
    if n == 0 then rtc
    else if SlicesOf(start, frames, n - 1) > 0 then frames[n - 1].wall
    else RtcTimeOver(rtc, start, frames, n - 1)
  }
  /** `rtc_time` is left alone until some iteration runs a slice, and from
      then on holds the wall-clock reading of one that did. */
  lemma {:induction false} RtcTimeIsLastWall(rtc: int, start: int, frames: seq<Frame>, n: nat)
    requires n <= |frames|
    ensures SlicesOver(start, frames, n) == 0 ==> RtcTimeOver(rtc, start, frames, n) == rtc
    ensures SlicesOver(start, frames, n) > 0 ==>
      exists k :: 0 <= k < n && SlicesOf(start, frames, k) > 0
        && RtcTimeOver(rtc, start, frames, n) == frames[k].wall
  {
    if n > 0 {
      RtcTimeIsLastWall(rtc, start, frames, n - 1);
      if SlicesOf(start, frames, n - 1) > 0 {
        assert RtcTimeOver(rtc, start, frames, n) == frames[n - 1].wall;
      }
    }
  }


  class Session {
    /** `FOX32_CPU_HZ`. */
    const cpuHz: nat

    var tickStart: int
    var tickEnd: int
    var ticks: nat
    var done: bool
    var rtcTime: int
    var rtcUptime: int

    /** The processor (`vm.halted` is `cpu.halted`) and `bus_requests_exit`. */
    var cpu: CpuState
    // the flags of `vm` argument parsing sets
    var debug: bool
    var headless: bool
    /** Interrupts raised with `fox32_raise`, oldest first. */
    var raised: seq<Interrupt>
    /** Faults printed with `puts(fox32_strerr(error))`. */
    var faultLog: seq<Status>

    // what argument parsing registered
    var disks: seq<Disk>
    var roms: seq<string>

    /** Number of `ScreenDraw()` calls. */
    ghost var draws: nat
    /** Every `SDL_Delay(delay)` call, in order. */
    ghost var sleeps: seq<int>

    ghost predicate Valid()
      reads this`tickStart, this`tickEnd, this`rtcUptime
    {
      IsU32(tickStart) && IsU32(tickEnd) && IsU32(rtcUptime)
    }

    /** The options as argument parsing sees them. */
    function Opts(): Options
      reads this`debug, this`headless, this`disks, this`roms
    {
      Options(debug, headless, disks, roms)
    }

    /** The state of the globals when `main` starts, after `fox32_init` and
        the explicit `vm.halted = false; vm.debug = false;`. */
    constructor (hz: nat, resumes: seq<Reply>, recovers: seq<Status>)
      ensures Valid() && cpuHz == hz
      ensures cpu == CpuState(resumes, recovers, false, false)
      ensures Opts() == Defaults()
      ensures tickStart == 0 && tickEnd == 0 && ticks == 0 && !done
      ensures rtcUptime == 0 && raised == [] && faultLog == []
      ensures draws == 0 && sleeps == []
    {
      cpuHz := hz;
      tickStart, tickEnd, ticks, done := 0, 0, 0, false;
      rtcTime, rtcUptime := 0, 0;
      cpu := CpuState(resumes, recovers, false, false);
      debug, headless := false, false;
      raised, faultLog := [], [];
      disks, roms := [], [];
      draws, sleeps := 0, [];
    }

    /** The `argv` loop of `main`. */
    method ParseArgs(argv: seq<string>) returns (outcome: Outcome)
      modifies this`debug, this`headless, this`disks, this`roms
      ensures Parsed(outcome, Opts()) == Parse(argv, old(Opts()))
    {
      var diskId: nat := |disks|;
      var i: nat := 1;
      while i < |argv|
        invariant diskId == |disks|
        invariant Parse(argv, old(Opts())) == ParseFrom(argv, i, Opts())
        decreases |argv| - i
      {
        if argv[i] == "--help" {
          return Exit(0);
        } else if argv[i] == "--disk" {
          if i + 1 < |argv| {
            disks := disks + [Disk(argv[i + 1], diskId)];
            diskId := diskId + 1;
            i := i + 1;
          } else {
            return Exit(1);
          }
        } else if argv[i] == "--rom" {
          if i + 1 < |argv| {
            roms := roms + [argv[i + 1]];
            i := i + 1;
          } else {
            return Exit(1);
          }
        } else if argv[i] == "--debug" {
          debug := true;
        } else if argv[i] == "--headless" {
          headless := true;
        } else {
          return Exit(1);
        }
        i := i + 1;
      }
      outcome := Continue;
    }

    /** `fox32_resume(&vm, budget, &executed)`. */
    method Resume(budget: nat) returns (status: Status, executed: nat)
      modifies this`cpu
      ensures Step(status, executed, cpu) == Cpu.Resume(old(cpu), budget)
    {
      var s := Cpu.Resume(cpu, budget);
      status, executed, cpu := s.status, s.executed, s.after;
    }

    /** `fox32_recover(&vm, err)`. */
    method Recover(err: Status) returns (status: Status)
      modifies this`cpu
      ensures (status, cpu) == Cpu.Recover(old(cpu), err)
    {
      var r := Cpu.Recover(cpu, err);
      status, cpu := r.0, r.1;
    }

    /** `fox32_raise(&vm, vector)`. */
    method Raise(vector: Interrupt)
      modifies this`raised
      ensures raised == old(raised) + [vector]
    {
      raised := raised + [vector];
    }

    /** The inner `while (cycles_left > 0)` loop of one millisecond slice. */
    method DriveSlice(budget: int) returns (left: int, abandoned: bool)
      modifies this`cpu, this`faultLog
      ensures var r := RunSlice(budget, old(cpu), debug, old(faultLog));
        left == r.left && abandoned == r.abandoned && cpu == r.after && faultLog == r.log
    {
      var cyclesLeft := budget;
      abandoned := false;
      while cyclesLeft > 0
        invariant RunSlice(budget, old(cpu), debug, old(faultLog))
          == RunSlice(cyclesLeft, cpu, debug, faultLog)
        invariant !abandoned
        decreases |cpu.resumes|, cyclesLeft
      {
        var status, executed := Resume(cyclesLeft);
        if status != Ok {
          if debug {
            faultLog := faultLog + [status];
          }
          status := Recover(status);
          if status != Ok {
            abandoned := true;
            break;
          }
        }
        cyclesLeft := cyclesLeft - executed;
      }
      left := cyclesLeft;
    }

    /** One pass of the slice loop: `rtc_uptime += 1`, `rtc_time = time(NULL)`,
        then the slice's budget (`cycles_per_tick`, plus `extra_cycles` for
        the last slice) driven to completion or abandonment. */
    method RunSliceAt(b: Budget, dt: int, i: int, wall: int)
      requires IsU32(rtcUptime)
      modifies this`rtcUptime, this`rtcTime, this`cpu, this`faultLog
      ensures rtcUptime == U32Inc(old(rtcUptime)) && rtcTime == wall
      ensures var s := RunSlice(SliceBudget(b, dt, i), old(cpu), debug, old(faultLog));
        cpu == s.after && faultLog == s.log
    {
      rtcUptime := U32Inc(rtcUptime);
      rtcTime := wall;
      var cyclesLeft := SliceBudget(b, dt, i);
      var left, abandoned := DriveSlice(cyclesLeft);
    }

    /** The `for (int i = 0; i < dt; i++)` loop of `main_loop`: per slice,
        advance the RTC uptime by one and read the wall clock, then drive
        the slice with its budget. */
    method RunTick(b: Budget, dt: int, wall: int)
      requires IsU32(rtcUptime)
      modifies this`rtcUptime, this`rtcTime, this`cpu, this`faultLog
      ensures var t := RunSlices(b, dt, 0, old(cpu), debug, old(faultLog));
        cpu == t.after && faultLog == t.log
      ensures IsU32(rtcUptime) && rtcUptime == UptimeAfter(old(rtcUptime), if dt > 0 then dt else 0)
      ensures rtcTime == (if dt > 0 then wall else old(rtcTime))
    {
      ghost var whole := RunSlices(b, dt, 0, cpu, debug, faultLog);
      var i := 0;
      while i < dt
        invariant 0 <= i && (dt > 0 ==> i <= dt) && (dt <= 0 ==> i == 0)
        invariant var rest := RunSlices(b, dt, i, cpu, debug, faultLog);
          whole.after == rest.after && whole.log == rest.log
        invariant IsU32(rtcUptime) && rtcUptime == UptimeAfter(old(rtcUptime), i)
        invariant rtcTime == (if i > 0 then wall else old(rtcTime))
        decreases dt - i
      {
        RunSliceAt(b, dt, i, wall);
        i := i + 1;
      }
    }

    /** The tick-cadence block of `main_loop`: on every `TPF`-th tick draw
        the screen unless headless, raise the vertical-sync interrupt and
        clear `vm.halted`, whatever it was. */
    method VsyncTick()
      modifies this`draws, this`raised, this`cpu
      ensures ticks % TPF == 0 ==>
        cpu == old(cpu).(halted := false) && raised == old(raised) + [Vsync]
        && draws == old(draws) + (if headless then 0 else 1)
      ensures ticks % TPF != 0 ==> cpu == old(cpu) && raised == old(raised) && draws == old(draws)
    {
      if ticks % TPF == 0 {
        if !headless {
          draws := draws + 1;
        }
        Raise(Vsync);
        cpu := cpu.(halted := false);
      }
    }

    /** `main_loop` without the emscripten registration and the adaptive
        budget: measure `dt`, run `dt` slices (advancing the RTC uptime by
        one per slice), then draw unless headless, raise the vertical-sync
        interrupt and unhalt the processor on the tick cadence, poll window
        events and count the tick. `now` and `restart` are the two
        `SDL_GetTicks()` readings, `wall` is `time(NULL)`, `quit` is what
        `ScreenProcessEvents()` returns. */
    method MainLoop(now: int, restart: int, wall: int, quit: bool)
      requires Valid() && IsU32(now) && IsU32(restart)
      modifies this`tickStart, this`rtcUptime, this`rtcTime, this`cpu, this`faultLog
      modifies this`draws, this`raised, this`done, this`ticks
      ensures Valid()
      ensures var dt := ElapsedMs(now, old(tickStart));
        var t := RunSlices(ComputeBudget(cpuHz, dt), dt, 0, old(cpu), old(debug), old(faultLog));
        && (if old(ticks) % TPF == 0 then cpu == t.after.(halted := false) else cpu == t.after)
        && faultLog == t.log
        && rtcUptime == UptimeAfter(old(rtcUptime), if dt > 0 then dt else 0)
        && rtcTime == (if dt > 0 then wall else old(rtcTime))
      ensures tickStart == restart && ticks == old(ticks) + 1 && done == quit
      ensures raised == old(raised) + (if old(ticks) % TPF == 0 then [Vsync] else [])
      ensures draws == old(draws) + (if old(ticks) % TPF == 0 && !headless then 1 else 0)
    {
      var dt := ElapsedMs(now, tickStart);
      tickStart := restart;
      var b := ComputeBudget(cpuHz, dt);
      RunTick(b, dt, wall);
      VsyncTick();
      done := quit;
      ticks := ticks + 1;
    }

    /** One iteration of the pull loop's body: `main_loop()`, then
        `tick_end = SDL_GetTicks()` and the pacing sleep, taken only when
        the delay is positive. */
    method Iterate(f: Frame)
      requires Valid() && ValidFrame(f)
      modifies this`tickStart, this`rtcUptime, this`rtcTime, this`cpu, this`faultLog
      modifies this`draws, this`raised, this`done, this`ticks, this`tickEnd, this`sleeps
      ensures Valid()
      ensures rtcUptime == UptimeAfter(old(rtcUptime), SlicesIn(f, old(tickStart)))
      ensures rtcTime == (if SlicesIn(f, old(tickStart)) > 0 then f.wall else old(rtcTime))
      ensures old(faultLog) <= faultLog && (!debug ==> faultLog == old(faultLog))
      ensures old(cpu.exitRequested) ==> cpu.exitRequested
      ensures old(ticks) % TPF == 0 ==> !cpu.halted
      ensures raised == old(raised) + (if old(ticks) % TPF == 0 then [Vsync] else [])
      ensures draws == old(draws) + (if old(ticks) % TPF == 0 && !headless then 1 else 0)
      ensures ticks == old(ticks) + 1 && done == f.quit
      ensures tickStart == f.restart && tickEnd == f.end
      ensures sleeps == old(sleeps) + SleepOf(f)
    {
      ghost var dt := ElapsedMs(f.now, tickStart);
      MainLoop(f.now, f.restart, f.wall, f.quit);
      TickKeepsRequests(ComputeBudget(cpuHz, dt), dt, 0, old(cpu), debug, old(faultLog));
      tickEnd := f.end;
      var delay := PacingDelay(tickStart, tickEnd);
      if delay > 0 {
        sleeps := sleeps + [delay];
      }
    }

    /** The fields the pull loop accounts for, as they are on entry. */
    ghost function Entry(): Snapshot
      reads this`tickStart, this`rtcUptime, this`rtcTime, this`ticks
      reads this`sleeps, this`raised, this`draws
    {
      Snapshot(tickStart, rtcUptime, rtcTime, ticks, sleeps, raised, draws)
    }

    /** The accounted fields after `n` iterations that began in `e`. */
    ghost predicate Ran(frames: seq<Frame>, n: nat, e: Snapshot)
      requires n <= |frames| && IsU32(e.uptime)
      reads this`tickStart, this`rtcUptime, this`rtcTime, this`ticks
      reads this`sleeps, this`raised, this`draws, this`headless
    {
      && tickStart == (if n == 0 then e.tickStart else frames[n - 1].restart)
      && rtcUptime == UptimeOver(e.uptime, e.tickStart, frames, n)
      && rtcTime == RtcTimeOver(e.rtc, e.tickStart, frames, n)
      && ticks == e.ticks + n
      && sleeps == e.sleeps + Sleeps(frames, n)
      && raised == e.raised + Vsyncs(n)
      && draws == e.draws + (if headless then 0 else n)
    }

    /** Iteration `n` of the pull loop: `Iterate` on `frames[n]`, stated
        against the state the loop began in. */
    method IterateAt(frames: seq<Frame>, n: nat, ghost e: Snapshot)
      requires Valid() && n < |frames| && ValidFrame(frames[n]) && IsU32(e.uptime)
      requires Ran(frames, n, e)
      modifies this`tickStart, this`rtcUptime, this`rtcTime, this`cpu, this`faultLog
      modifies this`draws, this`raised, this`done, this`ticks, this`tickEnd, this`sleeps
      ensures Valid() && Ran(frames, n + 1, e)
      ensures old(faultLog) <= faultLog && (!debug ==> faultLog == old(faultLog))
      ensures old(cpu.exitRequested) ==> cpu.exitRequested
      ensures done == frames[n].quit && tickEnd == frames[n].end
    {
      Iterate(frames[n]);
      assert Sleeps(frames, n + 1) == Sleeps(frames, n) + SleepOf(frames[n]);
      assert sleeps == e.sleeps + (Sleeps(frames, n) + SleepOf(frames[n]));
      assert raised == e.raised + (Vsyncs(n) + [Vsync]);
    }

    /** The pull loop of `main`: while neither `done` nor
        `bus_requests_exit`, run one iteration. The exit condition is checked
        once per iteration, never inside one. The loop is given the host
        readings of at most `|frames|` iterations; `n` is how many it ran. */
    method PullLoop(frames: seq<Frame>) returns (n: nat)
      requires Valid() && forall k :: 0 <= k < |frames| ==> ValidFrame(frames[k])
      modifies this`tickStart, this`rtcUptime, this`rtcTime, this`cpu, this`faultLog
      modifies this`draws, this`raised, this`done, this`ticks, this`tickEnd, this`sleeps
      ensures Valid() && n <= |frames|
      ensures ticks == old(ticks) + n
      ensures n == 0 <==> old(done) || old(cpu.exitRequested) || frames == []
      ensures n < |frames| ==> done || cpu.exitRequested
      ensures n == 0 ==> tickStart == old(tickStart) && tickEnd == old(tickEnd)
      ensures n > 0 ==> done == frames[n - 1].quit && tickEnd == frames[n - 1].end
      ensures n > 0 ==> tickStart == frames[n - 1].restart
      ensures forall k :: 0 <= k < n - 1 ==> !frames[k].quit
      ensures sleeps == old(sleeps) + Sleeps(frames, n)
      ensures raised == old(raised) + Vsyncs(n)
      ensures draws == old(draws) + (if headless then 0 else n)
      ensures old(faultLog) <= faultLog && (!debug ==> faultLog == old(faultLog))
      ensures rtcUptime == UptimeOver(old(rtcUptime), old(tickStart), frames, n)
      ensures rtcTime == RtcTimeOver(old(rtcTime), old(tickStart), frames, n)
    {
      n := 0;
      ghost var e := Entry();
      while !done && !cpu.exitRequested && n < |frames|
        invariant Valid() && n <= |frames| && Ran(frames, n, e)
        invariant if n == 0 then
            done == old(done) && cpu.exitRequested == old(cpu.exitRequested) && tickEnd == old(tickEnd)
          else
            !old(done) && !old(cpu.exitRequested) && done == frames[n - 1].quit
            && tickEnd == frames[n - 1].end
        invariant forall k :: 0 <= k < n - 1 ==> !frames[k].quit
        invariant old(faultLog) <= faultLog && (!debug ==> faultLog == old(faultLog))
        decreases |frames| - n
      {
        IterateAt(frames, n, e);
        n := n + 1;
      }
    }

    /** The window set-up of `main`: unless headless, start the video
        subsystem (`videoOk` is whether `SDL_Init` succeeds) and, when it
        does, draw the first frame. `ok` is false exactly when `main` must
        then fail. */
    method OpenWindow(videoOk: bool) returns (ok: bool)
      modifies this`draws
      ensures ok <==> headless || videoOk
      ensures draws == old(draws) + (if ok && !headless then 1 else 0)
    {
      ok := true;
      if !headless {
        if !videoOk {
          return false;
        }
        draws := draws + 1;
      }
    }

    /** `main` without the SDL window set-up, the serial port and the
        emscripten main-loop registration: parse the arguments (returning
        their exit code if they ask for one), fail with 1 when the window
        system cannot start, draw once unless headless, read the clock
        twice and enter the pull loop. `videoOk` is whether `SDL_Init`
        succeeds; `start` and `end` are the two start-up clock readings. */
    method Start(argv: seq<string>, videoOk: bool, start: int, end: int, frames: seq<Frame>)
      returns (code: int, n: nat)
      requires Valid() && Opts() == Defaults() && IsU32(start) && IsU32(end)
      requires forall k :: 0 <= k < |frames| ==> ValidFrame(frames[k])
      modifies this`debug, this`headless, this`disks, this`roms
      modifies this`tickStart, this`rtcUptime, this`rtcTime, this`cpu, this`faultLog
      modifies this`draws, this`raised, this`done, this`ticks, this`tickEnd, this`sleeps
      ensures Valid()
      ensures var p := Parse(argv, Defaults());
        Opts() == p.opts
        && (p.outcome.Exit? ==> code == p.outcome.code && n == 0)
        && (p.outcome == Continue && !headless && !videoOk ==> code == 1 && n == 0)
      ensures Parse(argv, Defaults()).outcome.Exit? || (!headless && !videoOk) ==>
        unchanged(this`tickStart, this`tickEnd, this`rtcUptime, this`rtcTime, this`cpu, this`faultLog)
        && unchanged(this`draws, this`raised, this`done, this`ticks, this`sleeps)
      ensures Parse(argv, Defaults()).outcome == Continue && (headless || videoOk) ==>
        code == 0 && n <= |frames| && ticks == old(ticks) + n
        && (n == 0 <==> old(done) || old(cpu.exitRequested) || frames == [])
        && (n < |frames| ==> done || cpu.exitRequested)
        && (n == 0 ==> tickStart == start && tickEnd == end)
        && (n > 0 ==> tickStart == frames[n - 1].restart && tickEnd == frames[n - 1].end
                      && done == frames[n - 1].quit)
        && sleeps == old(sleeps) + Sleeps(frames, n)
        && raised == old(raised) + Vsyncs(n)
        && draws == old(draws) + (if headless then 0 else 1 + n)
        && old(faultLog) <= faultLog && (!debug ==> faultLog == old(faultLog))
        && rtcUptime == UptimeOver(old(rtcUptime), start, frames, n)
        && rtcTime == RtcTimeOver(old(rtcTime), start, frames, n)
      ensures headless ==> draws == old(draws)
    {
      n := 0;
      var outcome := ParseArgs(argv);
      if outcome.Exit? {
        return outcome.code, 0;
      }
      var windowOk := OpenWindow(videoOk);
      if !windowOk {
        return 1, 0;
      }
      tickStart := start;
      tickEnd := end;
      n := PullLoop(frames);
      code := 0;
    }
  }

  /** The `SDL_Delay` an iteration with these readings asks for: one sleep
      of `delay` milliseconds when the pacing delay is positive, none
      otherwise. A sleep is never longer than a tick unless the iteration
      stalled for more than 2^31 + 16 ms. */
  function SleepOf(f: Frame): (r: seq<int>)
    ensures |r| <= 1
    ensures forall k :: 0 <= k < |r| ==>
      r[k] > 0 && ValidFrame(f) && (r[k] <= TickMs || U32Sub(f.end, f.restart) > IntMax + TickMs + 1)
  {
    if !ValidFrame(f) then [] else
    var d := PacingDelay(f.restart, f.end);
    if d > 0 then [d] else []
  }

  /** The sleeps of the first `n` iterations, in order: at most one per
      iteration, each for a positive time. */
  function Sleeps(frames: seq<Frame>, n: nat): (r: seq<int>)
    requires n <= |frames|
    ensures |r| <= n
    ensures forall j :: 0 <= j < |r| ==> r[j] > 0
  {
    if n == 0 then [] else Sleeps(frames, n - 1) + SleepOf(frames[n - 1])
  }

  /** Iterations none of which stalled for more than 2^31 + 16 ms sleep
      once for each iteration that finished early, each time for at most
      one tick. */
  lemma {:induction false} SleepsWithinTick(frames: seq<Frame>, n: nat)
    requires n <= |frames|
    requires forall k :: 0 <= k < n ==>
      ValidFrame(frames[k]) && U32Sub(frames[k].end, frames[k].restart) <= IntMax + TickMs + 1
    ensures forall j :: 0 <= j < |Sleeps(frames, n)| ==> 0 < Sleeps(frames, n)[j] <= TickMs
    ensures |Sleeps(frames, n)| == Early(frames, n)
  {
    if n > 0 {
      SleepsWithinTick(frames, n - 1);
      var f := frames[n - 1];
      PacingDelayIsRemainder(f.restart, f.end);
    }
  }

  /** How many of the first `n` iterations finished before their tick was up. */
  function Early(frames: seq<Frame>, n: nat): nat
    requires n <= |frames|
  {
    if n == 0 then 0
    else
      var f := frames[n - 1];
      Early(frames, n - 1) + (if ValidFrame(f) && U32Sub(f.end, f.restart) < TickMs then 1 else 0)
  }
}

=== FILE: timing.dfy ===
/** The tick arithmetic of `main_loop` and the pacing of the pull loop in
    `main`: how many milliseconds elapsed, how the per-tick cycle total is
    cut into per-millisecond slices, and how long the host sleeps. */
module Timing {
  import opened CInt

  const FPS: int := 60
  /** Ticks per frame: the vertical-sync cadence. */
  const TPF: int := 1
  /** Ticks per second. */
  const TPS: int := FPS * TPF
  /** `1000/TPS`: the target length of one tick in milliseconds. */
  const TickMs: int := 1000 / TPS

  /** `FOX32_CPU_HZ / TPS`: the cycles one tick is meant to run. */
  function PerTick(hz: nat): nat {
    hz / TPS
  }

  /** `int dt = SDL_GetTicks() - tick_start; if (!dt) dt = 1;` — the
      uint32_t difference of two tick readings, stored in an `int`, with 0
      raised to 1. A stall of 2^31 ms or more reads as a negative `dt`. */
  function ElapsedMs(now: int, tickStart: int): (dt: int)
    requires IsU32(now) && IsU32(tickStart)
    ensures dt != 0 && IsInt(dt)
    ensures U32Sub(now, tickStart) == 0 ==> dt == 1
    ensures 0 < U32Sub(now, tickStart) <= IntMax ==> dt == U32Sub(now, tickStart)
    ensures U32Sub(now, tickStart) > IntMax ==> dt < 0
  {
    var raw := ToInt(U32Sub(now, tickStart));
    if raw == 0 then 1 else raw
  }

  /** `cycles_per_tick` (given to every slice) and `extra_cycles` (added to
      the last slice only). */
  datatype Budget = Budget(perSlice: int, extra: int)

  /** `cycles_per_tick = FOX32_CPU_HZ / TPS / dt` and
      `extra_cycles = FOX32_CPU_HZ / TPS - cycles_per_tick * dt`, with C's
      division. */
  function ComputeBudget(hz: nat, dt: int): Budget
    requires dt != 0
  {
    var q := TruncDiv(PerTick(hz), dt);
    Budget(q, PerTick(hz) - q * dt)
  }

  /** The two numbers are quotient and remainder of the per-tick total by
      `dt` (the remainder smaller than `|dt|`, whatever the sign of `dt`),
      no intermediate product exceeds that total, and a positive `dt` never
      gives a negative per-slice budget. */
  lemma BudgetSplitsTick(hz: nat, dt: int)
    requires dt != 0
    ensures var b := ComputeBudget(hz, dt);
      b.perSlice * dt + b.extra == PerTick(hz)
      && 0 <= b.extra < Abs(dt)
      && 0 <= b.perSlice * dt <= PerTick(hz)
      && (dt > 0 ==> b.perSlice >= 0)
  {
  }

  /** For a positive `dt` the budget is exactly Euclidean division. */
  lemma BudgetIsDivMod(hz: nat, dt: int)
    requires dt > 0
    ensures ComputeBudget(hz, dt).perSlice == PerTick(hz) / dt
    ensures ComputeBudget(hz, dt).extra == PerTick(hz) % dt
  {
  }

  /** The budget of slice `i`: `cycles_left = cycles_per_tick`, plus
      `extra_cycles` when `i == dt - 1`. */
  function SliceBudget(b: Budget, dt: int, i: int): int {
    if i == dt - 1 then b.perSlice + b.extra else b.perSlice
  }

  /** Cycles scheduled over slices `0 .. n-1`. */
  function Scheduled(b: Budget, dt: int, n: nat): int {
    if n == 0 then 0 else Scheduled(b, dt, n - 1) + SliceBudget(b, dt, n - 1)
  }

  lemma {:induction false} ScheduledBeforeLast(b: Budget, dt: int, n: nat)
    requires n < dt
    ensures Scheduled(b, dt, n) == n * b.perSlice
  {
    if n > 0 {
      ScheduledBeforeLast(b, dt, n - 1);
    }
  }

  /** The `dt` slices of one tick together schedule exactly
      `FOX32_CPU_HZ / TPS` cycles, also when `dt` exceeds that total and
      every slice but the last gets 0. */
  lemma {:induction false} ScheduleCoversTick(hz: nat, dt: int)
    requires dt > 0
    ensures Scheduled(ComputeBudget(hz, dt), dt, dt) == PerTick(hz)
  {
    var b := ComputeBudget(hz, dt);
    BudgetSplitsTick(hz, dt);
    ScheduledBeforeLast(b, dt, dt - 1);
    assert (dt - 1) * b.perSlice + b.perSlice == b.perSlice * dt;
  }

  /** A 64 MHz clock and a 16 ms tick give 66666 cycles
      per millisecond and 10 left over for the last slice. */
  lemma BudgetExample()
    ensures ComputeBudget(64000000, 16) == Budget(66666, 10)
  {
    BudgetIsDivMod(64000000, 16);
  }

  /** `int delay = 1000/TPS - (tick_end - tick_start);` — the subtraction
      happens in unsigned arithmetic (the `int` operand is converted to
      uint32_t), and the result is stored in an `int`. */
  function PacingDelay(tickStart: int, tickEnd: int): (delay: int)
    requires IsU32(tickStart) && IsU32(tickEnd)
    ensures IsInt(delay)
    ensures delay <= TickMs || U32Sub(tickEnd, tickStart) > IntMax + TickMs + 1
  {
    ToInt(U32Sub(TickMs, U32Sub(tickEnd, tickStart)))
  }

  /** For any elapsed time up to 2^31 + 16 ms the delay is the time left of
      the tick, so the host sleeps (`delay > 0`) exactly when the iteration
      finished early, and sleeping brings the iteration to one tick. */
  lemma PacingDelayIsRemainder(tickStart: int, tickEnd: int)
    requires IsU32(tickStart) && IsU32(tickEnd)
    requires U32Sub(tickEnd, tickStart) <= IntMax + TickMs + 1
    ensures PacingDelay(tickStart, tickEnd) == TickMs - U32Sub(tickEnd, tickStart)
    ensures PacingDelay(tickStart, tickEnd) > 0 <==> U32Sub(tickEnd, tickStart) < TickMs
  {
  }

  /** An iteration that took 2^31 + 17 ms or more wraps around and reads as
      early: the host then sleeps for a positive delay. */
  lemma PacingDelayAfterLongStall(tickStart: int, tickEnd: int)
    requires IsU32(tickStart) && IsU32(tickEnd)
    requires U32Sub(tickEnd, tickStart) > IntMax + TickMs + 1
    ensures PacingDelay(tickStart, tickEnd) == TickMs - U32Sub(tickEnd, tickStart) + U32Modulus
    ensures PacingDelay(tickStart, tickEnd) > 0
  {
  }

  /** `rtc_uptime` after `n` slices of `rtc_uptime += 1`. */
  function UptimeAfter(uptime: int, n: nat): (r: int)
    requires IsU32(uptime)
    ensures IsU32(r)
  {
    if n == 0 then uptime else U32Inc(UptimeAfter(uptime, n - 1))
  }

  /** The uptime register advances by exactly the number of slices, modulo
      2^32: it only ever counts up, wrapping from 2^32 - 1 to 0. */
  lemma {:induction false} UptimeCountsSlices(uptime: int, n: nat)
    requires IsU32(uptime)
    ensures UptimeAfter(uptime, n) == (uptime + n) % U32Modulus
  {
    if n > 0 {
      UptimeCountsSlices(uptime, n - 1);
      var x := uptime + n - 1;
      var q, r := x / U32Modulus, x % U32Modulus;
      assert x == q * U32Modulus + r;
      if r + 1 < U32Modulus {
        ModOfMultiplePlus(q, r + 1);
      } else {
        assert x + 1 == (q + 1) * U32Modulus + 0;
        ModOfMultiplePlus(q + 1, 0);
      }
    }
  }

  /** Counting `a` slices and then `b` more is counting `a + b`. */
  lemma {:induction false} UptimeAfterAdds(uptime: int, a: nat, b: nat)
    requires IsU32(uptime)
    ensures UptimeAfter(UptimeAfter(uptime, a), b) == UptimeAfter(uptime, a + b)
  {
    if b > 0 {
      UptimeAfterAdds(uptime, a, b - 1);
    }
  }

  lemma ModOfMultiplePlus(q: int, r: int)
    requires 0 <= r < U32Modulus
    ensures (q * U32Modulus + r) % U32Modulus == r
  {
  }
}
